=== FILE: README.md ===
# django-carrot models in Dafny

A model of the pure logic in `carrot/models.py` of django-carrot. That file
defines two Django models.

- `MessageLog` is the record of one task sent through RabbitMQ. The model
  covers its closed status enumeration and column defaults, and the lifecycle
  its class documentation describes: UNPUBLISHED, then PUBLISHED, then
  COMPLETED or FAILED. It also covers `requeue`, which republishes a record's
  task and then deletes the record, and the default listing order
  (`Meta.ordering`).
- `ScheduledTask` is a task fired at a fixed interval. The model covers the
  unit-to-seconds `multiplier`, the `interval_display` text, the
  `positional_arguments` parser, and the defaulting `publish` applies before it
  calls the broker.

The table becomes a map from primary key to record (`MessageStore.Store`).
The broker publish becomes a `BrokerOutcome` passed in by the caller.
`Delivered(pk, uuid, at)` carries the fresh primary key, uuid and time that
the database, the uuid generator and the clock would supply. `Refused` means
the publish raised.

Files:

- `wrappers.dfy`: `Option` (for Python's `None`) and `Result`.
- `strings.dfy`: the Python string operations the models use. These are
  truthiness and `or`, `str.strip()`, `str.split(',')` and its inverse
  `','.join`, `s[:-1]`, and `'%i'` formatting.
- `scheduled_task.dfy`: `ScheduledTask`.
- `message_log.dfy`: the `MessageLog` record, its statuses and its lifecycle.
- `message_store.dfy`: `requeue` over the record store.
- `listing.dfy`: the default order `('-priority', 'pk')`.

Behaviour of the code worth knowing:

- `requeue` does not look at the status. Only its docstring and the class
  docstring say it is for a failed record. So `MessageStore.Requeue` has no
  status precondition. The FAILED-only rule is the separate lifecycle
  predicate `MessageLogs.MayRequeue`, and `RequeueRetiresFailedRecord` shows
  what requeueing a record that satisfies it does.
- `multiplier` falls through to `return 1` for every interval text other than
  `minutes`, `hours` and `days`, including texts outside `INTERVAL_CHOICES`.
- `positional_arguments` tests a segment with `if a` before it calls
  `a.strip()`. So a blank segment such as the middle of `"a, ,b"` is kept and
  becomes `''`.
- The class docstring says the act of publishing creates the record with
  status PUBLISHED. So the record a delivered requeue adds is PUBLISHED from
  the start.

## Model

| member | source | states |
|---|---|---|
| `Strings.OrElse` | carrot/models.py:201-203 | Python `a or b`: a non-empty value is kept; `None` and `''` give the default; the result is empty only when both operands are |
| `Strings.Strip` | carrot/models.py:195 | `str.strip()` leaves no whitespace at either end and never lengthens its input |
| `Strings.StripIsSlice` | carrot/models.py:195 | what `strip()` keeps is one contiguous slice of the input, and everything removed on both sides is whitespace |
| `Strings.StripKeepsContent` | carrot/models.py:195 | a segment strips to `''` exactly when it is all whitespace; every kept character comes from the segment |
| `Strings.StripIdempotent` | carrot/models.py:195 | stripping twice is the same as stripping once |
| `Strings.TrimmedStripIsIdentity` | carrot/models.py:195 | a string with no whitespace at either end is unchanged by `strip()` |
| `Strings.Split` | carrot/models.py:195 | `split(',')` yields one more segment than there are commas |
| `Strings.SplitPartsHaveNoSeparator` | carrot/models.py:195 | no segment of `split(',')` contains a comma |
| `Strings.JoinSplit` | carrot/models.py:195 | joining the segments with commas gives the original text back |
| `Strings.SplitJoin` | carrot/models.py:195 | splitting a join of comma-free segments gives those segments back, so the split is the unique comma-free decomposition |
| `Strings.DropLast` | carrot/models.py:176-177 | `s[:-1]` plus the last character is `s`; `''[:-1]` is `''` |
| `Strings.FormatInt` | carrot/models.py:176 | `'%i'` of a count is a non-empty string of digits with no leading zero |
| `Strings.ParseFormatInt` | carrot/models.py:176 | the digits `'%i'` prints read back as the count |
| `ScheduledTasks.NewScheduledTask` | carrot/models.py:159-169 | a new definition is in unit `seconds`, displays as `"Every 1 second"`, fires every 1 second, is active, has no positional arguments, and publishes with exchange `''`, no queue or routing key and keyword text `'{}'` |
| `ScheduledTasks.ParseUnit` | carrot/models.py:152-157 | a stored interval text names a unit only if it is that unit's choice key |
| `ScheduledTasks.ParseUnitName` | carrot/models.py:152-157 | every one of the four interval choices reads back as its unit |
| `ScheduledTasks.Multiplier` | carrot/models.py:179-190 | the multiplier is at least 1 for every interval text |
| `ScheduledTasks.MultiplierMatchesUnits` | carrot/models.py:180-190 | `minutes`, `hours`, `days` and `seconds` get the length of that unit in seconds (60, 3600, 86400, 1); every other text gets 1 |
| `ScheduledTasks.IntervalSeconds` | carrot/models.py:180-190 | count times multiplier is at least the count, at least 1 when the count is at least 1, and count times the unit length for a known unit |
| `ScheduledTasks.TwoHours` | carrot/models.py:184-185 | two hours is 7200 seconds |
| `ScheduledTasks.IntervalDisplay` | carrot/models.py:174-177 | the display starts with `"Every "`, and its length is that prefix plus the number, one blank and the unit word |
| `ScheduledTasks.DisplayReadsBackCount` | carrot/models.py:175-177 | the number in the display is all digits, has no leading zero, reads back as the interval count and is followed by one blank |
| `ScheduledTasks.DisplayUnitWord` | carrot/models.py:175-177 | the unit word is the stored text when the count exceeds 1; otherwise it is the stored text minus its last character, which restored gives the stored text back |
| `ScheduledTasks.DisplayExamples` | carrot/models.py:175-177 | one hour displays as `"Every 1 hour"` and three minutes as `"Every 3 minutes"` |
| `ScheduledTasks.StripNonEmpty` | carrot/models.py:195 | the comprehension keeps at most one element per segment, every element has no whitespace at either end, and comma-free segments give comma-free elements |
| `ScheduledTasks.StripNonEmptyExact` | carrot/models.py:195 | exactly the segments that were non-empty before stripping are kept, stripped and in their original order |
| `ScheduledTasks.PositionalArguments` | carrot/models.py:192-197 | `None` or `''` gives no arguments; otherwise there are at most commas + 1 arguments, none containing a comma and none with whitespace at either end |
| `ScheduledTasks.ArgumentsOfSegments` | carrot/models.py:193-195 | a non-empty text made of comma-free segments parses into the stripped non-empty segments |
| `ScheduledTasks.PositionalArgumentsTrimAndDrop` | carrot/models.py:193-197 | `"a, b ,,c"` parses to `("a", "b", "c")` |
| `ScheduledTasks.PositionalArgumentsEmptySegment` | carrot/models.py:193-197 | `"a,,b"` parses to `("a", "b")`: the empty segment is dropped |
| `ScheduledTasks.PositionalArgumentsBlankSegment` | carrot/models.py:193-197 | `"a, ,b"` parses to `("a", "", "b")`: a blank segment is not dropped |
| `ScheduledTasks.TrimmedSegments` | carrot/models.py:195 | the segments of `"a, b ,,c"` strip to `a`, `b`, `c` with the empty one dropped |
| `ScheduledTasks.BlankSegment` | carrot/models.py:195 | the segments of `"a, ,b"` strip to `a`, `''`, `b` |
| `ScheduledTasks.Publish` | carrot/models.py:199-203 | the broker receives the exchange, or `''` when it is empty; the routing key, or the queue when it is empty; the keyword text, or `'{}'` when it is empty; plus the parsed positional arguments, the task, the queue and the priority |
| `ScheduledTasks.PublishDefaultsIdempotent` | carrot/models.py:199-203 | writing the defaulted exchange, routing key and keyword text into the definition does not change what is published |
| `MessageLogs.ParseStatus` | carrot/models.py:32-39 | a stored status value names a status only if it is that status's choice key |
| `MessageLogs.StatusCodeRoundTrip` | carrot/models.py:32-39 | every status reads back from its stored value, so the four codes are distinct |
| `MessageLogs.NewMessageLog` | carrot/models.py:39-58 | a new record is UNPUBLISHED with priority 0; exchange, queue, routing key, arguments, exception, traceback, output, log and all timestamps are `None` |
| `MessageLogs.TerminalIffNoMove` | carrot/models.py:19-29 | COMPLETED and FAILED are exactly the statuses no lifecycle move leaves |
| `MessageLogs.RunAdvances` | carrot/models.py:19-27 | along any sequence of lifecycle moves the stage strictly increases, so no status is revisited |
| `MessageLogs.RunShape` | carrot/models.py:19-27 | a lifecycle from UNPUBLISHED has at most three statuses: UNPUBLISHED, PUBLISHED, then one terminal status |
| `MessageLogs.Apply` | carrot/models.py:20-25 | an event is accepted exactly when the lifecycle allows its move, and is otherwise rejected as an invalid transition; on acceptance the routing and invocation fields stay; an acknowledgement stamps the publish time and leaves every outcome text and the other times alone; success writes output, log and completion time and keeps exception, traceback, publish and failure times; failure writes exception, traceback, output, log and failure time and keeps the publish and completion times |
| `MessageLogs.ApplyKeepsTimesAgree` | carrot/models.py:54-56 | every accepted event keeps publish, failure and completion times in agreement with the status |
| `MessageLogs.TerminalRefusesEvents` | carrot/models.py:23-29 | a COMPLETED or FAILED record accepts no further event |
| `MessageStore.RequeueExchange` | carrot/models.py:134 | exchange `'default'` becomes `''`, any other value is copied, and the result is never `'default'` |
| `MessageStore.RequeueMessage` | carrot/models.py:130-139 | the new message copies queue, routing key, task, priority, positional and keyword arguments; its exchange is `''` exactly when the record's is `''` or `'default'` |
| `MessageStore.PublishedLog` | carrot/models.py:20-22 | a delivered message leaves a PUBLISHED record with the given uuid, a publish time and the message's fields, and no exception, traceback, output or log yet |
| `MessageStore.PublishMessage` | carrot/models.py:140 | a refused publish leaves the store untouched and raises; a delivered one adds exactly one record under a fresh key and changes nothing else |
| `MessageStore.Delete` | carrot/models.py:141 | deleting removes exactly that key and leaves every other record as it was |
| `MessageStore.Requeue` | carrot/models.py:122-141 | a refused publish leaves the whole store unchanged; a delivered one removes the original key, adds the new key and changes no other record |
| `MessageStore.RequeueCopiesRecord` | carrot/models.py:130-139 | the replacement carries the original's queue, routing key, task, priority and arguments; its exchange is `''` exactly when the original's was `''` or `'default'`; it is PUBLISHED and carries none of the original's exception, traceback, output or log |
| `MessageStore.RequeueNeverLosesTask` | carrot/models.py:140-141 | whatever the broker does, afterwards the store holds the untouched original or a record for the same invocation |
| `MessageStore.RequeueIntermediateKeepsBoth` | carrot/models.py:140-141 | between the publish and the delete both the original and its replacement are in the store, and the delete then yields the final state |
| `MessageStore.RequeueRetiresFailedRecord` | carrot/models.py:26-27 | requeueing a FAILED record removes exactly that FAILED key and adds exactly one PUBLISHED key; the COMPLETED and UNPUBLISHED sets do not change |
| `Listing.Insert` | carrot/models.py:144 | inserting a record into an ordered listing keeps it ordered and adds just that key |
| `Listing.ListRecords` | carrot/models.py:143-144 | the listing holds every key exactly once, with priority non-increasing and keys ascending within equal priority |
| `Listing.ListingIsUnique` | carrot/models.py:144 | two ordered listings of the same records are identical, so the order is total |

## Left out

- `virtual_host`, `get_host_from_name`, `publish_message` and `Message.publish`
  call into `carrot.utilities` and `carrot.objects`, which are not part of
  this model. The broker is reduced to a delivered/refused outcome, and the
  record a delivered message writes is assumed to carry the message's fields.
- A refused publish is modelled as raising before any record is written. What
  `Message.publish` does on failure lives in `carrot.objects`, which is not
  part of this model.
- `MessageLogs.Apply`: the consumer that sets COMPLETED or FAILED and writes
  the output back is not in `carrot/models.py`. The event model follows the
  class docstring. `TimesAgree` is an invariant this model adds;
  `carrot/models.py` does not enforce it.
- `ScheduledTasks.Publish`: stops at the arguments handed to
  `publish_message`. `json.loads` of the keyword text is not modelled, so
  keyword arguments stay JSON text.
- `parsed_content`, `get_url`, `href`, `retry_url`, `delete_url`,
  `get_absolute_url`, `delete_href`, `__str__`: URL and HTML rendering.
- `display_time` and the `display_*_time` properties: `strftime` formatting.
- Field lengths, `save` and `delete` internals, and transactions: Django ORM
  persistence. The table is an abstract map.
- The three-day cleanup of completed records, and any scheduler tick that
  decides when a task is due. Neither is implemented in `carrot/models.py`.
- The `sys.path` change at import time, and all concurrency.
- `Strings.IsSpace` is the whitespace set of Python 3.4 and later
  `str.strip()`. Older Pythons, 2.7 included, also strip U+180E; that code
  point is not in the model's set.

=== FILE: listing.dfy ===
/** The default order of `MessageLog` rows, `Meta.ordering = ('-priority', 'pk')`:
    highest priority first, ties broken by ascending primary key. */
module Listing {
  import opened MessageLogs
  import opened MessageStore

  /** Record `a` is listed before record `b`. */
  predicate ListedBefore(s: Store, a: Pk, b: Pk)
    requires a in s && b in s
  {
    s[a].priority > s[b].priority || (s[a].priority == s[b].priority && a < b)
  }

  /** `ids` are keys of `s`, each listed before every later one. */
  predicate InListingOrder(s: Store, ids: seq<Pk>) {
    && (forall i :: 0 <= i < |ids| ==> ids[i] in s)
    && (forall i, j :: 0 <= i < j < |ids| ==> ListedBefore(s, ids[i], ids[j]))
  }

  /** Puts `k` into its place in an ordered listing. */
  function Insert(s: Store, k: Pk, ids: seq<Pk>): (r: seq<Pk>)
    requires k in s && k !in ids && InListingOrder(s, ids)
    ensures InListingOrder(s, r)
    ensures |r| == |ids| + 1
    ensures forall x :: x in r <==> x == k || x in ids
  {
    if ids == [] then [k]
    else if ListedBefore(s, k, ids[0]) then [k] + ids
    else
      var rest := Insert(s, k, ids[1..]);
      assert forall x :: x in rest ==> ListedBefore(s, ids[0], x);
      [ids[0]] + rest
  }

  /** The rows of the table in their default order: every key exactly once,
      priorities non-increasing, and keys ascending among equal priorities. */
  method ListRecords(s: Store) returns (ids: seq<Pk>)
    ensures forall k :: k in ids <==> k in s
    ensures |ids| == |s|
    ensures InListingOrder(s, ids)
    ensures forall i, j :: 0 <= i < j < |ids| ==> s[ids[i]].priority >= s[ids[j]].priority
    ensures forall i, j :: 0 <= i < j < |ids| && s[ids[i]].priority == s[ids[j]].priority ==>
              ids[i] < ids[j]
  {
    ids := [];
    var rest := s.Keys;
    while rest != {}
      invariant rest <= s.Keys
      invariant forall k :: k in ids <==> k in s && k !in rest
      invariant |ids| + |rest| == |s.Keys|
      invariant InListingOrder(s, ids)
      decreases |rest|
    {
      var k :| k in rest;
      ids := Insert(s, k, ids);
      rest := rest - {k};
    }
  }

  /** The order is total: two ordered listings of the same records are equal,
      so the listing of a table is fully determined. */
  lemma {:induction false} ListingIsUnique(s: Store, a: seq<Pk>, b: seq<Pk>)
    requires InListingOrder(s, a) && InListingOrder(s, b)
    requires forall k :: k in a <==> k in b
    ensures a == b
  {
    assert a == [] <==> b == [] by {
      if a != [] { assert a[0] in b; }
      if b != [] { assert b[0] in a; }
    }
    if a != [] {
      assert b[0] in b && a[0] in a;
      var i :| 0 <= i < |a| && a[i] == b[0];
      var j :| 0 <= j < |b| && b[j] == a[0];
      assert i == 0;
      forall k ensures k in a[1..] <==> k in b[1..] {
        if k in a[1..] {
          var i :| 0 <= i < |a[1..]| && a[1..][i] == k;
          assert a[i + 1] == k && ListedBefore(s, a[0], k);
          assert k in b;
        }
        if k in b[1..] {
          var j :| 0 <= j < |b[1..]| && b[1..][j] == k;
          assert b[j + 1] == k && ListedBefore(s, b[0], k);
          assert k in a;
        }
      }
      ListingIsUnique(s, a[1..], b[1..]);
      assert a == [a[0]] + a[1..] && b == [b[0]] + b[1..];
    }
  }
}

=== FILE: message_log.dfy ===
/** The `MessageLog` record of carrot/models.py: its closed status enumeration,
    its field defaults and the lifecycle its class documentation lays down,
    UNPUBLISHED -> PUBLISHED -> COMPLETED | FAILED. */
module MessageLogs {
  import opened Wrappers

  // ---------------------------------------------------------------------------
  // Status
  // ---------------------------------------------------------------------------

  /** The four entries of `STATUS_CHOICES`. */
  datatype Status = Unpublished | Published | Failed | Completed

  /** The value stored in the `status` column. */
  function StatusCode(s: Status): string {
    match s
    case Unpublished => "UNPUBLISHED"
    case Published => "PUBLISHED"
    case Failed => "FAILED"
    case Completed => "COMPLETED"
  }

  /** The status a stored value names; `None` for anything outside the choices. */
  function ParseStatus(code: string): (s: Option<Status>)
    ensures s.Some? ==> StatusCode(s.value) == code
  {
    if code == "UNPUBLISHED" then Some(Unpublished)
    else if code == "PUBLISHED" then Some(Published)
    else if code == "FAILED" then Some(Failed)
    else if code == "COMPLETED" then Some(Completed)
    else None
  }

  /** Every status reads back from its stored value, so the four codes are
      distinct and the enumeration is closed. */
  lemma StatusCodeRoundTrip(s: Status)
    ensures ParseStatus(StatusCode(s)) == Some(s)
  {
  }

  // ---------------------------------------------------------------------------
  // The record
  // ---------------------------------------------------------------------------

  /** A point in time; only its order matters here. */
  type Time = int

  /** A row of the `MessageLog` table (its primary key is the key of the store
      it lives in). Nullable columns are `Option`s; `priority` is a
      `PositiveIntegerField`, hence a `nat`. */
  datatype MessageLog = MessageLog(
    status: Status,
    exchange: Option<string>,
    queue: Option<string>,
    routingKey: Option<string>,
    uuid: string,
    priority: nat,
    task: string,
    taskArgs: Option<string>,
    content: Option<string>,
    exception: Option<string>,
    traceback: Option<string>,
    output: Option<string>,
    publishTime: Option<Time>,
    failureTime: Option<Time>,
    completionTime: Option<Time>,
    log: Option<string>)

  /** A fresh record with the column defaults: status UNPUBLISHED, priority 0,
      every nullable column empty. */
  function NewMessageLog(uuid: string, task: string): (r: MessageLog)
    ensures r.status == Unpublished && r.priority == 0
    ensures r.uuid == uuid && r.task == task
    ensures TimesAgree(r)
    ensures r.exchange == None && r.queue == None && r.routingKey == None
    ensures r.taskArgs == None && r.content == None
    ensures r.exception == None && r.traceback == None && r.output == None && r.log == None
  {
    MessageLog(Unpublished, None, None, None, uuid, 0, task, None, None,
               None, None, None, None, None, None, None)
  }

  /** The timestamps agree with the status: a publish time once published, a
      failure time exactly when failed, a completion time exactly when
      completed. */
  predicate TimesAgree(r: MessageLog) {
    && (r.publishTime.Some? <==> r.status != Unpublished)
    && (r.failureTime.Some? <==> r.status == Failed)
    && (r.completionTime.Some? <==> r.status == Completed)
  }

  // ---------------------------------------------------------------------------
  // Lifecycle
  // ---------------------------------------------------------------------------

  /** The moves the class documentation allows: publishing, then the consumer
      reporting success or failure. */
  predicate Moves(from: Status, to: Status) {
    || (from == Unpublished && to == Published)
    || (from == Published && (to == Completed || to == Failed))
  }

  /** COMPLETED and FAILED end a record's lifecycle. */
  predicate Terminal(s: Status) {
    s == Completed || s == Failed
  }

  /** Only a failed record may be requeued. Requeueing replaces the record by a
      new one rather than moving it, so it is not one of the `Moves`. */
  predicate MayRequeue(s: Status) {
    s == Failed
  }

  /** A status is terminal exactly when no move leaves it. */
  lemma TerminalIffNoMove(s: Status)
    ensures Terminal(s) <==> forall t :: !Moves(s, t)
  {
    if !Terminal(s) {
      var t := if s == Unpublished then Published else Completed;
      assert Moves(s, t);
    }
  }

  /** How far along its lifecycle a status is. */
  function Stage(s: Status): nat {
    match s
    case Unpublished => 0
    case Published => 1
    case Failed => 2
    case Completed => 2
  }

  /** A sequence of statuses a record passes through, one move at a time. */
  predicate IsRun(run: seq<Status>) {
    forall i :: 0 <= i < |run| - 1 ==> Moves(run[i], run[i + 1])
  }

  /** Along a run the stage strictly grows, so no status is ever revisited
      and a record never goes back to UNPUBLISHED. */
  lemma {:induction false} RunAdvances(run: seq<Status>)
    requires IsRun(run)
    ensures forall i, j :: 0 <= i < j < |run| ==> Stage(run[i]) < Stage(run[j])
    ensures forall i :: 0 <= i < |run| ==> Stage(run[0]) + i <= Stage(run[i])
  {
    if |run| > 1 {
      RunAdvances(run[1..]);
      forall i | 0 < i < |run| ensures Stage(run[0]) + i <= Stage(run[i]) {
        assert run[1..][0] == run[1] && run[1..][i - 1] == run[i];
      }
      forall i, j | 0 <= i < j < |run| ensures Stage(run[i]) < Stage(run[j]) {
        if i > 0 {
          assert run[i] == run[1..][i - 1] && run[j] == run[1..][j - 1];
        } else if j > 1 {
          assert run[1] == run[1..][0] && run[j] == run[1..][j - 1];
        }
      }
    }
  }

  /** A complete lifecycle has at most three statuses: UNPUBLISHED, PUBLISHED
      and one terminal status. */
  lemma RunShape(run: seq<Status>)
    requires IsRun(run) && |run| > 0 && run[0] == Unpublished
    ensures |run| <= 3
    ensures |run| >= 2 ==> run[1] == Published
    ensures |run| == 3 ==> Terminal(run[2])
  {
    RunAdvances(run);
    assert Stage(run[|run| - 1]) >= |run| - 1;
  }

  // ---------------------------------------------------------------------------
  // Record transitions
  // ---------------------------------------------------------------------------

  /** What happens to a record: the broker acknowledges it, or a consumer
      reports the task's success or its exception. The report's texts are the
      output, traceback, exception message and logs written back to the record. */
  datatype Event =
    | Acknowledged(at: Time)
    | Succeeded(output: Option<string>, log: Option<string>, at: Time)
    | Raised(exception: Option<string>, traceback: Option<string>,
             output: Option<string>, log: Option<string>, at: Time)

  /** The status an event moves a record to. */
  function Target(e: Event): Status {
    match e
    case Acknowledged(_) => Published
    case Succeeded(_, _, _) => Completed
    case Raised(_, _, _, _, _) => Failed
  }

  /** The fields that say what to run and where: unchanged by every transition. */
  predicate SameTask(a: MessageLog, b: MessageLog) {
    && a.exchange == b.exchange && a.queue == b.queue && a.routingKey == b.routingKey
    && a.uuid == b.uuid && a.priority == b.priority && a.task == b.task
    && a.taskArgs == b.taskArgs && a.content == b.content
  }

  datatype LifecycleError = InvalidTransition(from: Status, to: Status)

  /** Applies an event to a record, refusing any move the lifecycle does not
      allow and writing the reported texts and the time back on success. */
  function Apply(r: MessageLog, e: Event): (res: Result<MessageLog, LifecycleError>)
    ensures res.Ok? <==> Moves(r.status, Target(e))
    ensures res.Err? ==> res.error == InvalidTransition(r.status, Target(e))
    ensures res.Ok? ==> res.value.status == Target(e) && SameTask(r, res.value)
    ensures res.Ok? && e.Succeeded? ==>
              res.value.output == e.output && res.value.log == e.log
              && res.value.completionTime == Some(e.at)
    ensures res.Ok? && e.Raised? ==>
              res.value.exception == e.exception && res.value.traceback == e.traceback
              && res.value.output == e.output && res.value.log == e.log
              && res.value.failureTime == Some(e.at)
    ensures res.Ok? && e.Acknowledged? ==>
              && res.value.publishTime == Some(e.at)
              && res.value.exception == r.exception && res.value.traceback == r.traceback
              && res.value.output == r.output && res.value.log == r.log
              && res.value.failureTime == r.failureTime
              && res.value.completionTime == r.completionTime
    ensures res.Ok? && e.Succeeded? ==>
              && res.value.exception == r.exception && res.value.traceback == r.traceback
              && res.value.publishTime == r.publishTime
              && res.value.failureTime == r.failureTime
    ensures res.Ok? && e.Raised? ==>
              res.value.publishTime == r.publishTime
              && res.value.completionTime == r.completionTime
  {
    if !Moves(r.status, Target(e)) then Err(InvalidTransition(r.status, Target(e)))
    else
      match e
      case Acknowledged(at) =>
        Ok(r.(status := Published, publishTime := Some(at)))
      case Succeeded(output, log, at) =>
        Ok(r.(status := Completed, output := output, log := log, completionTime := Some(at)))
      case Raised(exception, traceback, output, log, at) =>
        Ok(r.(status := Failed, exception := exception, traceback := traceback,
              output := output, log := log, failureTime := Some(at)))
  }

  /** Every allowed transition keeps the timestamps in agreement with the
      status, so a record never claims a time for a state it has not reached. */
  lemma ApplyKeepsTimesAgree(r: MessageLog, e: Event)
    requires TimesAgree(r)
    ensures Apply(r, e).Ok? ==> TimesAgree(Apply(r, e).value)
  {
  }

  /** A terminal record refuses every event. */
  lemma TerminalRefusesEvents(r: MessageLog, e: Event)
    requires Terminal(r.status)
    ensures Apply(r, e).Err?
  {
  }
}

=== FILE: message_store.dfy ===
/** `MessageLog.requeue` (carrot/models.py) over an abstract record store: the
    table becomes a map from primary key to record and the broker publish
    becomes an outcome handed in by the caller, either an acknowledgement or a
    refusal. */
module MessageStore {
  import opened Wrappers
  import opened MessageLogs

  /** A primary key of the `MessageLog` table. */
  type Pk = nat

  /** The `MessageLog` table. */
  type Store = map<Pk, MessageLog>

  /** A task message as `requeue` builds it: the routing and invocation fields
      of `carrot.objects.Message` (its virtual host is derived from the queue
      and is not modelled). */
  datatype Message = Message(
    queue: Option<string>,
    routingKey: Option<string>,
    exchange: Option<string>,
    task: string,
    priority: nat,
    taskArgs: Option<string>,
    taskKwargs: Option<string>)

  /** The exchange a requeued message is sent to: the name `'default'` stands
      for the broker's default exchange, whose name is `''`. */
  function RequeueExchange(exchange: Option<string>): (e: Option<string>)
    ensures e != Some("default")
    ensures exchange == Some("default") ==> e == Some("")
    ensures exchange != Some("default") ==> e == exchange
  {
    if exchange == Some("default") then Some("") else exchange
  }

  /** The replacement message `requeue` builds from a record: every routing and
      invocation field copied, the exchange normalised. */
  function RequeueMessage(r: MessageLog): (m: Message)
    ensures m.queue == r.queue && m.routingKey == r.routingKey
    ensures m.task == r.task && m.priority == r.priority
    ensures m.taskArgs == r.taskArgs && m.taskKwargs == r.content
    ensures m.exchange == RequeueExchange(r.exchange)
    ensures m.exchange == Some("") <==> r.exchange in {Some(""), Some("default")}
  {
    Message(r.queue, r.routingKey, RequeueExchange(r.exchange), r.task, r.priority,
            r.taskArgs, r.content)
  }

  // ---------------------------------------------------------------------------
  // The broker
  // ---------------------------------------------------------------------------

  /** What the broker does with a publish: it acknowledges the message, and the
      database gives the record it writes a fresh primary key and the message a
      fresh uuid; or it refuses, and the publish raises. */
  datatype BrokerOutcome = Delivered(pk: Pk, uuid: string, at: Time) | Refused

  /** The error a refused publish raises. */
  datatype BrokerError = BrokerError

  /** The store after an operation, with its result or the error it raised. */
  datatype Outcome = Outcome(store: Store, result: Result<Pk, BrokerError>)

  /** The record a delivered message leaves in the store: PUBLISHED, stamped
      with the publish time, holding the message's fields. */
  function PublishedLog(m: Message, uuid: string, at: Time): (r: MessageLog)
    ensures r.status == Published && TimesAgree(r)
    ensures r.queue == m.queue && r.routingKey == m.routingKey && r.exchange == m.exchange
    ensures r.task == m.task && r.priority == m.priority
    ensures r.taskArgs == m.taskArgs && r.content == m.taskKwargs
    ensures r.uuid == uuid
    ensures r.exception == None && r.traceback == None && r.output == None && r.log == None
  {
    NewMessageLog(uuid, m.task).(
      status := Published, exchange := m.exchange, queue := m.queue,
      routingKey := m.routingKey, priority := m.priority, taskArgs := m.taskArgs,
      content := m.taskKwargs, publishTime := Some(at))
  }

  /** `Message.publish`: on acknowledgement one new PUBLISHED record is added
      under its fresh key; on refusal the store is untouched and the error is
      raised. */
  function PublishMessage(s: Store, m: Message, outcome: BrokerOutcome): (o: Outcome)
    requires outcome.Delivered? ==> outcome.pk !in s
    ensures outcome.Refused? ==> o.store == s && o.result == Err(BrokerError)
    ensures outcome.Delivered? ==>
              && o.result == Ok(outcome.pk)
              && o.store.Keys == s.Keys + {outcome.pk}
              && (forall k :: k in s ==> o.store[k] == s[k])
              && o.store[outcome.pk] == PublishedLog(m, outcome.uuid, outcome.at)
  {
    match outcome
    case Refused => Outcome(s, Err(BrokerError))
    case Delivered(pk, uuid, at) => Outcome(s[pk := PublishedLog(m, uuid, at)], Ok(pk))
  }

  /** `self.delete()`: the row goes, every other row stays. */
  function Delete(s: Store, pk: Pk): (s': Store)
    ensures s'.Keys == s.Keys - {pk}
    ensures forall k :: k in s' ==> s'[k] == s[k]
  {
    s - {pk}
  }

  // ---------------------------------------------------------------------------
  // requeue
  // ---------------------------------------------------------------------------

  /** `MessageLog.requeue`: publish a copy of the record first, and only once
      that publish has returned delete the record. The source does not look at
      the status; `MayRequeue` states the docstring's FAILED-only rule apart. */
  function Requeue(s: Store, pk: Pk, outcome: BrokerOutcome): (o: Outcome)
    requires pk in s
    requires outcome.Delivered? ==> outcome.pk !in s
    ensures outcome.Refused? ==> o.store == s && o.result.Err?
    ensures outcome.Delivered? ==>
              && o.result == Ok(outcome.pk)
              && pk !in o.store && outcome.pk in o.store
              && o.store.Keys == s.Keys - {pk} + {outcome.pk}
              && (forall k :: k in s && k != pk ==> o.store[k] == s[k])
  {
    var published := PublishMessage(s, RequeueMessage(s[pk]), outcome);
    if published.result.Err? then published
    else Outcome(Delete(published.store, pk), published.result)
  }

  /** The two records describe the same invocation: same queue, routing key,
      task, priority and arguments, and the same exchange once `'default'` is
      read as `''`. */
  predicate SameInvocation(a: MessageLog, b: MessageLog) {
    && a.queue == b.queue && a.routingKey == b.routingKey
    && a.task == b.task && a.priority == b.priority
    && a.taskArgs == b.taskArgs && a.content == b.content
    && RequeueExchange(a.exchange) == RequeueExchange(b.exchange)
  }

  /** The replacement record carries the original's routing and invocation
      fields, with exchange `'default'` rewritten to `''`, and starts a fresh
      lifecycle as a PUBLISHED record. */
  lemma RequeueCopiesRecord(s: Store, pk: Pk, outcome: BrokerOutcome)
    requires pk in s && outcome.Delivered? && outcome.pk !in s
    ensures var n := Requeue(s, pk, outcome).store[outcome.pk];
            && SameInvocation(n, s[pk])
            && n.queue == s[pk].queue && n.routingKey == s[pk].routingKey
            && n.task == s[pk].task && n.priority == s[pk].priority
            && n.taskArgs == s[pk].taskArgs && n.content == s[pk].content
            && (n.exchange == Some("") <==> s[pk].exchange in {Some(""), Some("default")})
            && (s[pk].exchange != Some("default") ==> n.exchange == s[pk].exchange)
            && n.status == Published && Moves(Unpublished, n.status)
            && n.uuid == outcome.uuid && n.publishTime == Some(outcome.at)
            && n.exception == None && n.traceback == None && n.output == None && n.log == None
  {
  }

  /** No data loss: whatever the broker does, the store afterwards holds a
      record for the original invocation, either the untouched original (the
      publish was refused) or its replacement. */
  lemma RequeueNeverLosesTask(s: Store, pk: Pk, outcome: BrokerOutcome)
    requires pk in s
    requires outcome.Delivered? ==> outcome.pk !in s
    ensures var o := Requeue(s, pk, outcome);
            || (pk in o.store && o.store[pk] == s[pk])
            || (o.result.Ok? && o.result.value in o.store
                && SameInvocation(o.store[o.result.value], s[pk]))
  {
  }

  /** Publish happens before delete: in the state between the two steps, where
      a crash would leave the store, both the original record and its
      replacement are present. */
  lemma RequeueIntermediateKeepsBoth(s: Store, pk: Pk, outcome: BrokerOutcome)
    requires pk in s && outcome.Delivered? && outcome.pk !in s
    ensures var mid := PublishMessage(s, RequeueMessage(s[pk]), outcome).store;
            && pk in mid && mid[pk] == s[pk]
            && outcome.pk in mid && SameInvocation(mid[outcome.pk], s[pk])
            && Delete(mid, pk) == Requeue(s, pk, outcome).store
  {
  }

  /** The keys of the records with a given status. */
  function KeysWithStatus(s: Store, st: Status): set<Pk> {
    set k | k in s && s[k].status == st
  }

  /** Requeueing a record the lifecycle allows to be requeued retires exactly
      that one FAILED record and adds exactly one PUBLISHED record; the other
      status classes are unchanged. */
  lemma RequeueRetiresFailedRecord(s: Store, pk: Pk, outcome: BrokerOutcome)
    requires pk in s && MayRequeue(s[pk].status)
    requires outcome.Delivered? && outcome.pk !in s
    ensures var s' := Requeue(s, pk, outcome).store;
            && KeysWithStatus(s', Failed) == KeysWithStatus(s, Failed) - {pk}
            && KeysWithStatus(s', Published) == KeysWithStatus(s, Published) + {outcome.pk}
            && KeysWithStatus(s', Completed) == KeysWithStatus(s, Completed)
            && KeysWithStatus(s', Unpublished) == KeysWithStatus(s, Unpublished)
  {
  }
}

=== FILE: scheduled_task.dfy ===
/** The configuration logic of `ScheduledTask` (carrot/models.py): the interval
    unit table, the human-readable interval, the positional-argument parser and
    the defaulting of routing and keyword arguments before a task is handed to
    the broker. */
module ScheduledTasks {
  import opened Wrappers
  import opened Strings

  /** A row of the `ScheduledTask` table. `intervalType` is kept as the stored
      text: the choices list is only enforced by forms, and `multiplier` has an
      explicit fallback for any other text. `intervalCount` is a
      `PositiveIntegerField`, so it is never negative; its `MinValueValidator(1)`
      is a form-level check and is stated separately where it matters. */
  datatype ScheduledTask = ScheduledTask(
    intervalType: string,
    intervalCount: nat,
    exchange: Option<string>,
    routingKey: Option<string>,
    queue: Option<string>,
    task: string,
    taskArgs: Option<string>,
    content: Option<string>,
    active: bool)

  /** A new definition with the model's field defaults: every `seconds`, once,
      active, every nullable field empty. */
  function NewScheduledTask(task: string): (t: ScheduledTask)
    ensures t.task == task && t.active
    ensures Multiplier(t.intervalType) == 1 && IntervalSeconds(t) == 1
    ensures PositionalArguments(t.taskArgs) == []
    ensures ParseUnit(t.intervalType) == Some(Seconds)
    ensures IntervalDisplay(t) == "Every 1 second"
    ensures Publish(t, 0) == PublishCall(task, 0, None, "", None, [], "{}")
  {
    ScheduledTask("seconds", 1, None, None, None, task, None, None, true)
  }

  // ---------------------------------------------------------------------------
  // Interval units
  // ---------------------------------------------------------------------------

  /** The four entries of `INTERVAL_CHOICES`. */
  datatype IntervalUnit = Seconds | Minutes | Hours | Days

  /** The text stored for a unit. */
  function UnitName(u: IntervalUnit): string {
    match u
    case Seconds => "seconds"
    case Minutes => "minutes"
    case Hours => "hours"
    case Days => "days"
  }

  /** The unit a stored text names, if any. */
  function ParseUnit(t: string): (u: Option<IntervalUnit>)
    ensures u.Some? ==> UnitName(u.value) == t
  {
    if t == "seconds" then Some(Seconds)
    else if t == "minutes" then Some(Minutes)
    else if t == "hours" then Some(Hours)
    else if t == "days" then Some(Days)
    else None
  }

  /** Every unit reads back from its stored text. */
  lemma ParseUnitName(u: IntervalUnit)
    ensures ParseUnit(UnitName(u)) == Some(u)
  {
  }

  /** Length of one unit in seconds, written as a clock would count it: the
      reference the `multiplier` table is checked against. */
  function UnitSeconds(u: IntervalUnit): nat {
    match u
    case Seconds => 1
    case Minutes => 60
    case Hours => 60 * 60
    case Days => 24 * 60 * 60
  }

  /** `ScheduledTask.multiplier`: seconds per unit of `intervalType`, with 1 for
      `seconds` and for any text outside the choices. */
  function Multiplier(intervalType: string): (m: nat)
    ensures m >= 1
  {
    if intervalType == "minutes" then 60
    else if intervalType == "hours" then 60 * 60
    else if intervalType == "days" then 86400
    else 1
  }

  /** The multiplier table agrees with the length of each unit, and every
      unrecognised text falls back to one second. */
  lemma MultiplierMatchesUnits(intervalType: string)
    ensures ParseUnit(intervalType).Some? ==>
              Multiplier(intervalType) == UnitSeconds(ParseUnit(intervalType).value)
    ensures ParseUnit(intervalType).None? ==> Multiplier(intervalType) == 1
  {
  }

  /** The interval between two firings, in seconds. */
  function IntervalSeconds(t: ScheduledTask): (r: nat)
    ensures r >= t.intervalCount
    ensures t.intervalCount >= 1 ==> r >= 1
    ensures ParseUnit(t.intervalType).Some? ==>
              r == t.intervalCount * UnitSeconds(ParseUnit(t.intervalType).value)
  {
    MultiplierMatchesUnits(t.intervalType);
    t.intervalCount * Multiplier(t.intervalType)
  }

  /** Two hours is 7200 seconds. */
  lemma TwoHours(t: ScheduledTask)
    requires t.intervalType == "hours" && t.intervalCount == 2
    ensures IntervalSeconds(t) == 7200
  {
  }

  // ---------------------------------------------------------------------------
  // interval_display
  // ---------------------------------------------------------------------------

  /** The unit word shown for a count: the stored text itself for counts above
      one, otherwise the text without its last character. */
  function UnitWord(t: ScheduledTask): string {
    if t.intervalCount > 1 then t.intervalType else DropLast(t.intervalType)
  }

  /** `ScheduledTask.interval_display`: `'Every %i %s'`. */
  function IntervalDisplay(t: ScheduledTask): (s: string)
    ensures |s| == 7 + |FormatInt(t.intervalCount)| + |UnitWord(t)|
    ensures s[..6] == "Every "
  {
    "Every " + FormatInt(t.intervalCount) + " " + UnitWord(t)
  }

  /** The number in the display is a decimal numeral with no leading zero that
      reads back as the interval count, and it is followed by a single blank. */
  lemma DisplayReadsBackCount(t: ScheduledTask)
    ensures var n := |FormatInt(t.intervalCount)|;
            && ParseInt(IntervalDisplay(t)[6..6 + n]) == t.intervalCount
            && (forall k :: 6 <= k < 6 + n ==> IsDigit(IntervalDisplay(t)[k]))
            && (n > 1 ==> IntervalDisplay(t)[6] != '0')
            && IntervalDisplay(t)[6 + n] == ' '
  {
    var d := FormatInt(t.intervalCount);
    assert IntervalDisplay(t)[6..6 + |d|] == d;
    ParseFormatInt(t.intervalCount);
  }

  /** The word after the number is the plural stored text when the count is
      above one; otherwise it is the singular, which gives back the stored text
      once its dropped last letter is restored. */
  lemma DisplayUnitWord(t: ScheduledTask)
    ensures var w := IntervalDisplay(t)[7 + |FormatInt(t.intervalCount)|..];
            && (t.intervalCount > 1 ==> w == t.intervalType)
            && (t.intervalCount <= 1 && t.intervalType != [] ==>
                  w + [t.intervalType[|t.intervalType| - 1]] == t.intervalType)
            && (t.intervalCount <= 1 && t.intervalType == [] ==> w == [])
  {
  }

  /** The display for one hour and for three minutes. */
  lemma DisplayExamples(t: ScheduledTask)
    ensures IntervalDisplay(t.(intervalType := "hours", intervalCount := 1)) == "Every 1 hour"
    ensures IntervalDisplay(t.(intervalType := "minutes", intervalCount := 3)) == "Every 3 minutes"
  {
  }

  // ---------------------------------------------------------------------------
  // positional_arguments
  // ---------------------------------------------------------------------------

  /** `[a.strip() for a in parts if a]`: the emptiness test looks at a segment
      before it is stripped, so a blank segment survives as `''`. */
  function StripNonEmpty(parts: seq<string>): (args: seq<string>)
    ensures |args| <= |parts|
    ensures forall i :: 0 <= i < |args| ==> Trimmed(args[i])
    ensures (forall k :: 0 <= k < |parts| ==> ',' !in parts[k]) ==>
              forall i :: 0 <= i < |args| ==> ',' !in args[i]
  {
    if parts == [] then []
    else
      var head := if parts[0] == [] then [] else [Strip(parts[0])];
      StripKeepsContent(parts[0]);
      head + StripNonEmpty(parts[1..])
  }

  /** `ScheduledTask.positional_arguments`: the comma-separated segments of
      `task_args`, stripped, without the segments that were empty; no arguments
      when `task_args` is `None` or `''`. */
  function PositionalArguments(taskArgs: Option<string>): (args: seq<string>)
    ensures !Truthy(taskArgs) ==> args == []
    ensures Truthy(taskArgs) ==> |args| <= Count(taskArgs.value, ',') + 1
    ensures forall i :: 0 <= i < |args| ==> ',' !in args[i] && Trimmed(args[i])
  {
    if Truthy(taskArgs) then
      SplitPartsHaveNoSeparator(taskArgs.value, ',');
      StripNonEmpty(Split(taskArgs.value, ','))
    else []
  }

  /** How many of `parts` are non-empty. */
  function NonEmptyCount(parts: seq<string>): nat {
    if parts == [] then 0 else (if parts[0] != [] then 1 else 0) + NonEmptyCount(parts[1..])
  }

  /** Exactly the non-empty segments are kept, each stripped, in their order:
      the `k`-th segment, when non-empty, lands at position "number of
      non-empty segments before it", and nothing else is in the result. */
  lemma {:induction false} StripNonEmptyExact(parts: seq<string>)
    ensures |StripNonEmpty(parts)| == NonEmptyCount(parts)
    ensures forall k :: 0 <= k < |parts| && parts[k] != [] ==>
              NonEmptyCount(parts[..k]) < |StripNonEmpty(parts)|
              && StripNonEmpty(parts)[NonEmptyCount(parts[..k])] == Strip(parts[k])
  {
    if parts != [] {
      var tail := parts[1..];
      StripNonEmptyExact(tail);
      var args := StripNonEmpty(parts);
      var rest := StripNonEmpty(tail);
      var h := if parts[0] != [] then 1 else 0;
      assert args == (if parts[0] == [] then [] else [Strip(parts[0])]) + rest;
      forall k | 0 <= k < |parts| && parts[k] != []
        ensures NonEmptyCount(parts[..k]) < |args|
        ensures args[NonEmptyCount(parts[..k])] == Strip(parts[k])
      {
        if k == 0 {
          assert parts[..0] == [];
        } else {
          var j := k - 1;
          assert parts[..k][1..] == tail[..j];
          assert parts[..k][0] == parts[0];
          assert NonEmptyCount(parts[..k]) == h + NonEmptyCount(tail[..j]);
          assert tail[j] == parts[k];
          assert args[h + NonEmptyCount(tail[..j])] == rest[NonEmptyCount(tail[..j])];
        }
      }
    }
  }

  /** The parser applied to a text given as the join of its segments. */
  lemma ArgumentsOfSegments(s: string, parts: seq<string>)
    requires s != [] && |parts| >= 1 && Join(parts, ',') == s
    requires forall k :: 0 <= k < |parts| ==> ',' !in parts[k]
    ensures PositionalArguments(Some(s)) == StripNonEmpty(parts)
  {
    SplitJoin(parts, ',');
  }

  /** An example: blanks around arguments are trimmed and the empty segment is
      dropped. */
  lemma PositionalArgumentsTrimAndDrop()
    ensures PositionalArguments(Some("a, b ,,c")) == ["a", "b", "c"]
  {
    var parts := ["a", " b ", "", "c"];
    assert PositionalArguments(Some("a, b ,,c")) == StripNonEmpty(parts) by {
      assert Join(parts, ',') == "a, b ,,c";
      ArgumentsOfSegments("a, b ,,c", parts);
    }
    TrimmedSegments();
  }

  /** The stripping step of that example. */
  lemma TrimmedSegments()
    ensures StripNonEmpty(["a", " b ", "", "c"]) == ["a", "b", "c"]
  {
    var parts := ["a", " b ", "", "c"];
    TrimmedStripIsIdentity("a");
    TrimmedStripIsIdentity("c");
    assert SkipSpace(" b ", 0) == 1;
    assert SkipSpaceBack(" b ", 1, 3) == 2;
    assert Strip(" b ") == "b";
    assert parts[1..][1..][1..][1..] == [];
    assert StripNonEmpty(parts[1..][1..][1..]) == ["c"];
    assert StripNonEmpty(parts[1..][1..]) == ["c"];
    assert StripNonEmpty(parts[1..]) == ["b", "c"];
  }

  /** The emptiness test runs before stripping: an empty segment is dropped. */
  lemma PositionalArgumentsEmptySegment()
    ensures PositionalArguments(Some("a,,b")) == ["a", "b"]
  {
    var parts := ["a", "", "b"];
    assert PositionalArguments(Some("a,,b")) == StripNonEmpty(parts) by {
      assert Join(parts, ',') == "a,,b";
      ArgumentsOfSegments("a,,b", parts);
    }
    assert StripNonEmpty(parts) == ["a", "b"] by {
      TrimmedStripIsIdentity("a");
      TrimmedStripIsIdentity("b");
    }
  }

  /** ... but a blank segment is not empty, so it survives as `''`. */
  lemma PositionalArgumentsBlankSegment()
    ensures PositionalArguments(Some("a, ,b")) == ["a", "", "b"]
  {
    var parts := ["a", " ", "b"];
    assert PositionalArguments(Some("a, ,b")) == StripNonEmpty(parts) by {
      assert Join(parts, ',') == "a, ,b";
      ArgumentsOfSegments("a, ,b", parts);
    }
    BlankSegment();
  }

  /** The stripping step of the blank-segment example. */
  lemma BlankSegment()
    ensures StripNonEmpty(["a", " ", "b"]) == ["a", "", "b"]
  {
    var parts := ["a", " ", "b"];
    TrimmedStripIsIdentity("a");
    TrimmedStripIsIdentity("b");
    assert SkipSpace(" ", 0) == 1;
    assert Strip(" ") == "";
    assert parts[1..][1..][1..] == [];
    assert StripNonEmpty(parts[1..][1..]) == ["b"];
    assert StripNonEmpty(parts[1..]) == ["", "b"];
  }

  // ---------------------------------------------------------------------------
  // publish: argument defaulting
  // ---------------------------------------------------------------------------

  /** The arguments `ScheduledTask.publish` hands to `publish_message`. The
      keyword arguments stay JSON text: decoding them is not modelled. */
  datatype PublishCall = PublishCall(
    task: string,
    priority: nat,
    queue: Option<string>,
    exchange: string,
    routingKey: Option<string>,
    args: seq<string>,
    kwargs: string)

  /** `ScheduledTask.publish(priority)` up to the broker call (the source's
      default priority is 0): an empty exchange becomes `''`, an empty routing
      key becomes the queue, empty keyword arguments become `'{}'`. */
  function Publish(t: ScheduledTask, priority: nat): (c: PublishCall)
    ensures c.task == t.task && c.priority == priority && c.queue == t.queue
    ensures c.args == PositionalArguments(t.taskArgs)
    ensures c.exchange == [] <==> !Truthy(t.exchange)
    ensures Truthy(t.exchange) ==> Some(c.exchange) == t.exchange
    ensures c.routingKey == (if Truthy(t.routingKey) then t.routingKey else t.queue)
    ensures c.kwargs != []
    ensures !Truthy(t.content) ==> c.kwargs == "{}"
    ensures Truthy(t.content) ==> Some(c.kwargs) == t.content
  {
    PublishCall(
      t.task, priority, t.queue,
      OrElse(t.exchange, ""),
      if Truthy(t.routingKey) then t.routingKey else t.queue,
      PositionalArguments(t.taskArgs),
      OrElse(t.content, "{}"))
  }

  /** The definition with the defaults `publish` applies written into it. */
  function WithDefaults(t: ScheduledTask): ScheduledTask {
    var c := Publish(t, 0);
    t.(exchange := Some(c.exchange), routingKey := c.routingKey, content := Some(c.kwargs))
  }

  /** Defaulting is idempotent: a definition that already holds the defaulted
      values publishes exactly as the original does. */
  lemma PublishDefaultsIdempotent(t: ScheduledTask, priority: nat)
    ensures Publish(WithDefaults(t), priority) == Publish(t, priority)
  {
  }
}

=== FILE: strings.dfy ===
/** The handful of Python string operations the models rely on: truthiness of a
    nullable text field, `str.split` on one separator character, `str.strip()`
    with no argument, slicing off the last character and `'%i'` formatting of a
    non-negative integer. */
module Strings {
  import opened Wrappers

  // ---------------------------------------------------------------------------
  // Truthiness of nullable text fields
  // ---------------------------------------------------------------------------

  /** Python truthiness of a nullable string: `None` and `''` are false. */
  predicate Truthy(s: Option<string>) {
    s.Some? && s.value != []
  }

  /** Python's `a or b` on a nullable string and a plain default. */
  function OrElse(a: Option<string>, b: string): (r: string)
    ensures Truthy(a) ==> Some(r) == a
    ensures !Truthy(a) ==> r == b
    ensures Truthy(Some(r)) <==> Truthy(a) || b != []
  {
    if Truthy(a) then a.value else b
  }

  // ---------------------------------------------------------------------------
  // Whitespace and str.strip()
  // ---------------------------------------------------------------------------

  /** The characters `str.strip()` removes when called without an argument:
      the code points Python classes as whitespace. */
  predicate IsSpace(c: char) {
    var n := c as int;
    || (0x09 <= n <= 0x0D) || (0x1C <= n <= 0x20)
    || n == 0x85 || n == 0xA0 || n == 0x1680
    || (0x2000 <= n <= 0x200A) || n == 0x2028 || n == 0x2029
    || n == 0x202F || n == 0x205F || n == 0x3000
  }

  /** Every character of `s` is whitespace. */
  predicate AllSpace(s: string) {
    forall k :: 0 <= k < |s| ==> IsSpace(s[k])
  }

  /** Neither end of `s` is whitespace (the empty string qualifies). */
  predicate Trimmed(s: string) {
    s == [] || (!IsSpace(s[0]) && !IsSpace(s[|s| - 1]))
  }

  /** The index of the first non-whitespace character of `s` at or after `i`,
      or `|s|` if there is none. */
  function SkipSpace(s: string, i: nat): (r: nat)
    requires i <= |s|
    ensures i <= r <= |s|
    ensures forall k :: i <= k < r ==> IsSpace(s[k])
    ensures r < |s| ==> !IsSpace(s[r])
    decreases |s| - i
  {
    if i < |s| && IsSpace(s[i]) then SkipSpace(s, i + 1) else i
  }

  /** The end of `s[lo..j]` once its trailing whitespace is cut off. */
  function SkipSpaceBack(s: string, lo: nat, j: nat): (r: nat)
    requires lo <= j <= |s|
    ensures lo <= r <= j
    ensures forall k :: r <= k < j ==> IsSpace(s[k])
    ensures r > lo ==> !IsSpace(s[r - 1])
    decreases j
  {
    if j > lo && IsSpace(s[j - 1]) then SkipSpaceBack(s, lo, j - 1) else j
  }

  /** `str.strip()`: `s` without its leading and trailing whitespace. */
  function Strip(s: string): (r: string)
    ensures Trimmed(r) && |r| <= |s|
  {
    var lo := SkipSpace(s, 0);
    s[lo..SkipSpaceBack(s, lo, |s|)]
  }

  /** What `Strip` keeps is one slice `s[i..i+|r|]` of its input, and everything
      cut away on either side of it is whitespace. */
  lemma StripIsSlice(s: string) returns (i: nat)
    ensures var r := Strip(s);
            i + |r| <= |s| && r == s[i..i + |r|]
            && AllSpace(s[..i]) && AllSpace(s[i + |r|..])
  {
    i := SkipSpace(s, 0);
    var hi := SkipSpaceBack(s, i, |s|);
    assert Strip(s) == s[i..hi];
    forall k | 0 <= k < |s| - hi ensures IsSpace(s[hi..][k]) {
      assert s[hi..][k] == s[hi + k];
    }
  }

  /** Stripping removes whitespace only: a string empties iff it is all blanks,
      and every character kept comes from the input. */
  lemma StripKeepsContent(s: string)
    ensures Strip(s) == [] <==> AllSpace(s)
    ensures forall c :: c in Strip(s) ==> c in s
  {
  }

  /** `str.strip()` is idempotent. */
  lemma StripIdempotent(s: string)
    ensures Strip(Strip(s)) == Strip(s)
  {
  }

  /** `str.strip()` leaves a string with no whitespace at either end alone. */
  lemma TrimmedStripIsIdentity(s: string)
    requires Trimmed(s)
    ensures Strip(s) == s
  {
  }

  // ---------------------------------------------------------------------------
  // str.split(sep) and its inverse sep.join(parts)
  // ---------------------------------------------------------------------------

  /** Number of occurrences of `c` in `s`. */
  function Count(s: string, c: char): nat {
    if s == [] then 0 else (if s[0] == c then 1 else 0) + Count(s[1..], c)
  }

  /** `s.split(sep)` for a one-character separator: the maximal runs between
      separators, empty runs included, so `''` splits into `['']`. */
  function Split(s: string, sep: char): (parts: seq<string>)
    ensures |parts| == Count(s, sep) + 1
  {
    if s == [] then [[]]
    else
      var rest := Split(s[1..], sep);
      if s[0] == sep then [[]] + rest else [[s[0]] + rest[0]] + rest[1..]
  }

  /** `sep.join(parts)`. */
  function Join(parts: seq<string>, sep: char): string
    requires |parts| >= 1
  {
    if |parts| == 1 then parts[0] else parts[0] + [sep] + Join(parts[1..], sep)
  }

  /** No part produced by `Split` contains the separator. */
  lemma {:induction false} SplitPartsHaveNoSeparator(s: string, sep: char)
    ensures forall k :: 0 <= k < |Split(s, sep)| ==> sep !in Split(s, sep)[k]
  {
    if s != [] {
      SplitPartsHaveNoSeparator(s[1..], sep);
      var rest := Split(s[1..], sep);
      if s[0] != sep {
        assert sep !in rest[0];
        assert Split(s, sep)[1..] == rest[1..];
      } else {
        assert Split(s, sep)[1..] == rest;
      }
    }
  }

  /** Joining the parts of a split gives the original string back. */
  lemma {:induction false} JoinSplit(s: string, sep: char)
    ensures Join(Split(s, sep), sep) == s
  {
    if s != [] {
      JoinSplit(s[1..], sep);
      var rest := Split(s[1..], sep);
      if s[0] == sep {
        assert Split(s, sep)[1..] == rest;
      } else {
        var parts := Split(s, sep);
        assert parts[1..] == rest[1..];
        if |rest| > 1 {
          assert Join(rest, sep) == rest[0] + [sep] + Join(rest[1..], sep);
        }
      }
    }
  }

  /** Splitting a join of separator-free parts gives the parts back, so
      `Split` is the unique separator-free decomposition of its input. */
  lemma {:induction false} SplitJoin(parts: seq<string>, sep: char)
    requires |parts| >= 1
    requires forall k :: 0 <= k < |parts| ==> sep !in parts[k]
    ensures Split(Join(parts, sep), sep) == parts
  {
    if |parts| == 1 {
      SplitSeparatorFree(parts[0], sep);
    } else {
      SplitJoin(parts[1..], sep);
      SplitPrefix(parts[0], Join(parts[1..], sep), sep);
      assert parts == [parts[0]] + parts[1..];
    }
  }

  lemma {:induction false} SplitSeparatorFree(s: string, sep: char)
    requires sep !in s
    ensures Split(s, sep) == [s]
  {
    if s != [] {
      assert sep !in s[1..];
      SplitSeparatorFree(s[1..], sep);
      assert [s[0]] + s[1..] == s;
    }
  }

  /** Splitting `a + [sep] + b` for separator-free `a` puts `a` in front of
      the split of `b`. */
  lemma {:induction false} SplitPrefix(a: string, b: string, sep: char)
    requires sep !in a
    ensures Split(a + [sep] + b, sep) == [a] + Split(b, sep)
  {
    if a == [] {
      assert [sep] + b == a + [sep] + b;
      assert (a + [sep] + b)[1..] == b;
    } else {
      SplitPrefix(a[1..], b, sep);
      assert (a + [sep] + b)[1..] == a[1..] + [sep] + b;
      var rest := Split(a[1..] + [sep] + b, sep);
      assert [a[0]] + rest[0] == a;
    }
  }

  // ---------------------------------------------------------------------------
  // Slicing and '%i' formatting
  // ---------------------------------------------------------------------------

  /** Python's `s[:-1]`: every character but the last; `''[:-1]` is `''`. */
  function DropLast(s: string): (r: string)
    ensures s != [] ==> r + [s[|s| - 1]] == s
    ensures s == [] ==> r == []
  {
    if s == [] then [] else s[..|s| - 1]
  }

  /** The decimal digit for `d`. */
  function DigitChar(d: nat): (c: char)
    requires d < 10
  {
    "0123456789"[d]
  }

  /** A decimal digit character. */
  predicate IsDigit(c: char) {
    '0' <= c <= '9'
  }

  /** The value of a decimal digit character. */
  function DigitValue(c: char): nat {
    if IsDigit(c) then (c as int - '0' as int) as nat else 0
  }

  /** `'%i' % n` for a non-negative `n`: its decimal numeral. */
  function FormatInt(n: nat): (s: string)
    ensures s != [] && forall k :: 0 <= k < |s| ==> IsDigit(s[k])
    ensures |s| > 1 ==> s[0] != '0'
  {
    if n < 10 then [DigitChar(n)] else FormatInt(n / 10) + [DigitChar(n % 10)]
  }

  /** The value of a decimal numeral; the reading `int(s)` gives for digits. */
  function ParseInt(s: string): nat {
    if s == [] then 0 else 10 * ParseInt(s[..|s| - 1]) + DigitValue(s[|s| - 1])
  }

  /** Reading a formatted number back gives the number. */
  lemma {:induction false} ParseFormatInt(n: nat)
    ensures ParseInt(FormatInt(n)) == n
  {
    if n >= 10 {
      ParseFormatInt(n / 10);
      var s := FormatInt(n);
      assert s[..|s| - 1] == FormatInt(n / 10);
    }
  }
}

=== FILE: wrappers.dfy ===
/** Option and Result, the failure-carrying datatypes the rest of the model uses
    in place of Python's `None` and raised exceptions. */
module Wrappers {

  /** A nullable value: `None` stands for Python's `None`. */
  datatype Option<+T> = None | Some(value: T)

  /** The outcome of an operation that may raise. */
  datatype Result<+T, +E> = Ok(value: T) | Err(error: E)
}
